=== FILE: README.md ===
# Snake race coordination, modelled in Dafny

The Snake Race runs one thread per snake. Each thread loops: wait at a
shared pause barrier, turn at random, ask the board to move the snake,
check the new head against every snake on the board, and sleep. A shared
game-over flag, set by compare-and-set, makes exactly one runner report the
loss to the window. The window starts, pauses and resumes the game, shows
pause statistics and latches the first loser.

This project models that coordination logic as pure state machines and proves
its contracts:

- `PauseControl` (pause_controller.dfy) models `PauseController`. Each
  `synchronized` block is one transition on a `Barrier` record, and each
  `wait()` loop becomes the predicate its waiter needs before it may leave.
  Each runner remembers its own pause generation. This lets the model state
  the counting invariant: while paused, `pausedCount` is exactly the number
  of runners holding the active generation.
- `SnakeRunner` (snake_runner.dfy) models `SnakeRunner`:
  - the collision test is a recursive function over the roster of body
    sequences, and the runner's own snake is identified by its index;
  - the game-over compare-and-set;
  - the turbo countdown, which selects the tick delay and the turn
    probability;
  - the per-tick exit decision.
- `SnakeApp` (snake_app.dfy) covers the non-drawing decisions of `SnakeApp`:
  the `handleAction` dispatch, the longest-snake loop of `buildPauseStats`,
  the `worstSnake` latch and the spawn formula of `resetGame`.
- `Session` (session.dfy) composes these into one interleaving model. Each
  runner has a program counter for its place in `run`. The window's event
  thread is either free or blocked in `requestPauseAndWait`. An event is one
  step of one thread. Most events are a single step that Java executes
  without interference. The few that merge several steps are listed under
  Left out. The session invariant is proved for every sequence of events.
- `Results` (results.dfy) holds `Option` and `Result`.

`Session.Variant` picks between two behaviours of the barrier's wait loops.
`AsWritten` follows the source. `Corrected` fixes the two deadlocks listed
under Findings. The counting invariant and the at-most-once callback are
proved for both variants.

Nothing external is called. Two things become parameters:

- the board's step is an arbitrary `MoveResult` together with an arbitrary new
  body for the stepping snake;
- the snake count, which the source reads from a system property, is the
  argument `n` of `Session.Reset`.

## Model

| member | source | states |
|---|---|---|
| PauseControl.New | src/main/java/co/eci/snake/concurrency/PauseController.java:10-17 | a negative runner count is rejected and builds nothing; otherwise the barrier starts paused at generation 1 or running at generation 0, with no acknowledgement counted |
| PauseControl.Ack | src/main/java/co/eci/snake/concurrency/PauseController.java:19-25 | a paused barrier and a caller whose generation differs from the active one: the count rises by exactly one and the caller adopts the active generation; any other call changes nothing and returns the caller's generation |
| PauseControl.AckIsIdempotent | src/main/java/co/eci/snake/concurrency/PauseController.java:21-29 | calling again with the generation just returned never counts the caller a second time |
| PauseControl.RequestPause | src/main/java/co/eci/snake/concurrency/PauseController.java:33-41 | on a paused barrier nothing changes and the call returns; otherwise the barrier pauses, the generation rises by exactly one and the count is kept; the call returns at once only with no runners or with every runner already counted |
| PauseControl.Resume | src/main/java/co/eci/snake/concurrency/PauseController.java:45-52 | a no-op on a running barrier; on a paused one it unpauses and clears the count, keeping the generation |
| PauseControl.ResumeReleasesRequester | src/main/java/co/eci/snake/concurrency/PauseController.java:39-41 | with `paused` consulted, a resumed barrier releases a waiting pause request; while paused this guard agrees with the written one |
| PauseControl.CountAtAdopt | src/main/java/co/eci/snake/concurrency/PauseController.java:21-23 | a runner adopting the active generation for the first time adds exactly one to the number of runners holding it |
| PauseControl.CountedBounds | src/main/java/co/eci/snake/concurrency/PauseController.java:22 | under the counting invariant the count lies between 0 and the number of runners |
| PauseControl.CompleteIffAllAcked | src/main/java/co/eci/snake/concurrency/PauseController.java:39-41 | on a paused barrier a pause request may return exactly when every runner holds the active generation: not before the last acknowledgement |
| PauseControl.NewIsCounted | src/main/java/co/eci/snake/concurrency/PauseController.java:12-16 | runners starting at generation 0 satisfy the counting invariant on a new barrier, paused or not |
| PauseControl.AckKeepsCounted | src/main/java/co/eci/snake/concurrency/PauseController.java:21-25 | an acknowledgement whose returned generation the runner keeps preserves the counting invariant |
| PauseControl.RequestKeepsCounted | src/main/java/co/eci/snake/concurrency/PauseController.java:35-37 | a pause request preserves the counting invariant: no runner holds the fresh generation |
| PauseControl.ResumeKeepsCounted | src/main/java/co/eci/snake/concurrency/PauseController.java:47-49 | resume preserves the counting invariant |
| PauseControl.Apply | src/main/java/co/eci/snake/concurrency/PauseController.java:19-52 | no call on the barrier lowers the pause generation or changes the runner count |
| PauseControl.RunKeepsCounted | src/main/java/co/eci/snake/concurrency/PauseController.java:19-52 | over any sequence of acknowledgements, pause requests and resumes, acknowledgements are never double-counted and the count never exceeds the runner count |
| PauseControl.RunNeverLowersGeneration | src/main/java/co/eci/snake/concurrency/PauseController.java:33-52 | over any sequence of calls the pause generation never decreases |
| SnakeRunner.HitsBody | src/main/java/co/eci/snake/concurrency/SnakeRunner.java:80-88 | the inner loop finds the head exactly when it equals a cell of the snapshot, the first cell excepted for the runner's own snake |
| SnakeRunner.CollidesFrom | src/main/java/co/eci/snake/concurrency/SnakeRunner.java:78-90 | the outer loop finds a collision exactly when some remaining snake has a compared cell equal to the head |
| SnakeRunner.CollidesWithAnySnake | src/main/java/co/eci/snake/concurrency/SnakeRunner.java:76-91 | a collision happens exactly when the head equals some cell of another snake (its head included) or a cell of the runner's own snake at index 1 or later; no other cell is compared |
| SnakeRunner.LoneSnakeNeverCollides | src/main/java/co/eci/snake/concurrency/SnakeRunner.java:82-85 | a roster holding only the runner's own one-cell snake never collides |
| SnakeRunner.CollisionCases | src/main/java/co/eci/snake/concurrency/SnakeRunner.java:79-86 | another snake's head and one's own second cell count as collisions; one's own first cell never affects the answer |
| SnakeRunner.TriggerGameOver | src/main/java/co/eci/snake/concurrency/SnakeRunner.java:70-74 | the flag is set afterwards; the callback is invoked, with the runner's own index, exactly when this call flips the flag |
| SnakeRunner.CallbackAtMostOnce | src/main/java/co/eci/snake/concurrency/SnakeRunner.java:70-74 | over any sequence of triggers from any runners the callback fires at most once, exactly when the flag was clear and someone triggered, with the first caller's index, and the flag is set afterwards |
| SnakeRunner.NoCallbackOnceSet | src/main/java/co/eci/snake/concurrency/SnakeRunner.java:71-73 | once the flag is set, no trigger invokes the callback |
| SnakeRunner.TurnProbability | src/main/java/co/eci/snake/concurrency/SnakeRunner.java:94 | the turn probability is 0.05 exactly while turbo ticks remain and 0.10 otherwise |
| SnakeRunner.Tick | src/main/java/co/eci/snake/concurrency/SnakeRunner.java:50-62 | an obstacle or a collision ends the loop; otherwise the delay is 40 ms exactly when the counter (after a pickup sets it to 100) is positive and 80 ms otherwise, and the counter counts down by one but never below zero |
| SnakeRunner.CountdownDelays | src/main/java/co/eci/snake/concurrency/SnakeRunner.java:61-62 | from a counter of t, ordinary ticks use the turbo delay for exactly t ticks and the base delay afterwards |
| SnakeRunner.TurboPickupDelays | src/main/java/co/eci/snake/concurrency/SnakeRunner.java:54-62 | after a turbo pickup, exactly 100 consecutive ticks (the pickup tick included) use 40 ms, whatever the counter was before, and every later tick uses 80 ms |
| SnakeApp.HandleAction | src/main/java/co/eci/snake/ui/legacy/SnakeApp.java:69-76 | nothing happens once the game is over; otherwise stopped starts, running pauses and paused resumes, so the action never stops the game and always changes its state |
| SnakeApp.PauseResumeRoundTrip | src/main/java/co/eci/snake/ui/legacy/SnakeApp.java:78-105 | on a started game, two actions pause and resume (or resume and pause) it back to the state they started from |
| SnakeApp.LongestSnake | src/main/java/co/eci/snake/ui/legacy/SnakeApp.java:107-116 | -1 exactly for an empty roster; otherwise a snake of maximal length whose every predecessor is strictly shorter, that is the lowest index among the longest |
| SnakeApp.ReportLoser | src/main/java/co/eci/snake/ui/legacy/SnakeApp.java:128 | the compare-and-set from -1 stores the index only while no loser is latched |
| SnakeApp.FirstLoserKept | src/main/java/co/eci/snake/ui/legacy/SnakeApp.java:128 | starting from the reset value -1, any sequence of loser reports leaves the first one, or -1 when there was none |
| SnakeApp.LatchedStays | src/main/java/co/eci/snake/ui/legacy/SnakeApp.java:128 | a latched loser survives every later report |
| SnakeApp.SpawnOf | src/main/java/co/eci/snake/ui/legacy/SnakeApp.java:154-157 | snake i spawns within [2, width+2) by [2, height+2) with a direction index below the direction count; the first snakes lie on the diagonal (2+3i, 2+2i) with direction i |
| SnakeApp.SpawnCanLeaveBoard | src/main/java/co/eci/snake/ui/legacy/SnakeApp.java:151-155 | on the 35 by 28 board, snake 11 spawns in column 35, outside the board: the formula does not keep x below the width |
| SnakeApp.Spawns | src/main/java/co/eci/snake/ui/legacy/SnakeApp.java:153-159 | one spawn per requested snake, snake i at position i; a negative count spawns none |
| Session.Head | src/main/java/co/eci/snake/concurrency/SnakeRunner.java:46 | a runner that sees the flag set at the loop head leaves without stepping; otherwise it goes on to the barrier; nothing else changes: not the event thread, the game state, the latch, the other runners, nor its own generation and counter |
| Session.Enter | src/main/java/co/eci/snake/concurrency/SnakeRunner.java:44-47 | the runner acknowledges with the generation it remembers and keeps the one returned; it blocks exactly when the barrier is paused; the event thread, the game state, the latch and the other runners are untouched |
| Session.Wake | src/main/java/co/eci/snake/concurrency/PauseController.java:26-28 | a blocked runner leaves the wait only when the barrier is not paused; otherwise (corrected variant) it acknowledges the newer pause and stays blocked; the event thread, the latch and the other runners are untouched |
| Session.Recheck | src/main/java/co/eci/snake/concurrency/SnakeRunner.java:48 | a runner that sees the flag set after the pause wait leaves without stepping; nothing else changes |
| Session.Advance | src/main/java/co/eci/snake/concurrency/SnakeRunner.java:49-62 | an obstacle or a collision of the new head sets the flag and ends the loop, win or lose; only the trigger's winner is recorded as notified and goes on to the callback; a surviving tick sets the turbo counter to 99 after a pickup and otherwise counts it down toward zero; the tick never touches the event thread, the game state, the latch or another runner |
| Session.Callback | src/main/java/co/eci/snake/ui/legacy/SnakeApp.java:127-130 | the game-over callback latches the loser, resumes the barrier (leaving it unpaused), and posts the stop of the game to the event thread; it does not touch the event thread's wait, the game state, the bodies or another runner |
| Session.Act | src/main/java/co/eci/snake/ui/legacy/SnakeApp.java:69-105 | a finished game ignores the action; starting or resuming resumes the barrier (open, count cleared, generation kept); pausing issues a pause request and blocks the event thread unless the request returns at once; the runners, the latch and the posted stop are untouched |
| Session.Next | src/main/java/co/eci/snake/concurrency/SnakeRunner.java:43-68 | no event lowers the pause generation, shrinks the notification record or clears the flag; a runner that has left its loop takes no further step; a snake moves only in its own runner's board step; the game-over half posted to the event thread leaves the game stopped and touches neither the barrier nor the event thread's wait; a returning pause request frees the event thread and changes neither the barrier nor the game state; a runner's event leaves the event thread, the game state and every other runner unchanged, and only the game-over callback changes the loser latch |
| Session.Reset | src/main/java/co/eci/snake/ui/legacy/SnakeApp.java:140-190 | one snake per spawn on its spawn cell; a barrier sized to the snake count that starts paused at generation 1; one runner per snake, with that snake's index, starting at generation 0; the flag clear, no loser, and the game stopped |
| Session.ResetInv | src/main/java/co/eci/snake/ui/legacy/SnakeApp.java:161-187 | a new session satisfies the session invariant |
| Session.NextKeepsInv | src/main/java/co/eci/snake/concurrency/SnakeRunner.java:43-74 | every event keeps the session invariant in either variant |
| Session.RunKeepsInv | src/main/java/co/eci/snake/concurrency/SnakeRunner.java:43-74 | every run keeps the session invariant |
| Session.SessionSafety | src/main/java/co/eci/snake/concurrency/SnakeRunner.java:70-74 | in every interleaving of a session: the callback has fired at most once, and exactly when the flag is set; the loser latch holds the notified index or nothing; the count stays within the runner count; a paused barrier is complete exactly when every runner holds the active generation; a running game has the barrier open; once a pause request has returned on a still-paused barrier, every runner is blocked in the barrier |
| Session.PauseRequestNeverHangs | src/main/java/co/eci/snake/concurrency/PauseController.java:19-43 | in the corrected variant, whenever the event thread waits on a pause request, some event still changes the session. It is one of three: the request returning, the winner's resuming callback, or a step of a live runner that has not acknowledged. This holds with the action's flag test and its pause request taken as one step |
| Session.LiveStep | src/main/java/co/eci/snake/concurrency/SnakeRunner.java:46-50 | a live runner that has not acknowledged the active pause always has a step that changes the session |
| Session.RepauseBeforeWakeDeadlocks | src/main/java/co/eci/snake/concurrency/PauseController.java:26-28 | as written, a pause requested again before a parked runner wakes leaves the session with no event that changes it |
| Session.StrandedAfterResume | src/main/java/co/eci/snake/concurrency/PauseController.java:39-41 | a waiting requester on an unpaused barrier with a count of 0 out of 1, whose only runner has left, can take no event: nothing changes the session any more |
| Session.ResumeDuringRequestDeadlocks | src/main/java/co/eci/snake/concurrency/PauseController.java:39-41 | as written, a resume during a pending pause request (the game-over callback) leaves the session with no event that changes it |

## Findings

| source | as written | input that shows it | evidently intended | confidence | as-written member | corrected member |
|---|---|---|---|---|---|---|
| src/main/java/co/eci/snake/concurrency/PauseController.java:26-28 | a runner acknowledges only on entry to `awaitIfPaused`; its wait loop re-tests `paused` and nothing else | one snake parks on the initial pause (generation 1). The player starts the game, which resumes, and pauses again before the runner's thread re-acquires the lock (generation 2). The runner keeps waiting without acknowledging generation 2. `requestPauseAndWait` then waits forever on the event thread | a runner still waiting when a new pause starts acknowledges the new generation, as the generation counter is meant to allow | medium, not executed | Session.RepauseBeforeWakeDeadlocks | Session.PauseRequestNeverHangs (with the action's flag test and pause request as one step) |
| src/main/java/co/eci/snake/concurrency/PauseController.java:39-41 | the pause requester waits while `pausedCount < totalRunners`, even after `resume()` has cleared the count | the player pauses while the only runner is mid-tick. The runner then hits an obstacle, and `handleGameOver` resumes the barrier from the runner's thread (SnakeApp.java line 129). The count is 0 of 1 and no runner remains, so the event thread waits forever | a resume releases a waiting pause request: the guard also consults `paused` (`PauseControl.PauseReleased`) | medium, not executed | Session.ResumeDuringRequestDeadlocks | Session.PauseRequestNeverHangs (with the action's flag test and pause request as one step) |

In the `Corrected` variant, a runner blocked in the wait loop acknowledges a
newer generation, and a pause request returns once the barrier is not paused
(`PauseControl.PauseReleased`). `Session.PauseRequestNeverHangs` needs both
corrections. It treats the action's test of the game-over flag and its pause
request as one step; the hang through a game over between the two remains in
both variants (see Left out). Each of the two as-written traces is a run that breaks it.

## Left out

- Blocking, `wait`/`notifyAll`, `InterruptedException` and thread interruption are not threads here. A wait is the predicate under which its event is enabled, and an interrupted `pauseGame` is not modelled.
- The timing of `Thread.sleep` is left out. The delay is computed (`SnakeRunner.Tick`) but no clock is modelled.
- The random draws of `maybeTurn` and `randomTurn`, and the `double` comparison, are left out. Only the selection of the probability is modelled. A turn is part of the arbitrary outcome of the board step.
- `Board.step`, `Snake.turn`, `Snake.head`, `Snake.snapshot`, `Snake.length`, `Direction` and `GameClock` are not part of this model. A step is any `MoveResult` with any non-empty new body. Directions are indices below `numDirs`. The longest-snake loop takes the lengths as its input.
- `Snake.of(x, y, dir)` is assumed to create a snake whose body is its spawn cell. The initial direction is computed but not kept in the session.
- The executor, the virtual threads and `CopyOnWriteArrayList` are left out, and the roster is an immutable sequence. One tick's board step and collision test form one atomic event. In the source, other snakes may move between the two.
- Session.Callback: the three actions of `handleGameOver` are one event: the compare-and-set of the latch, the synchronized `resume` and the `invokeLater` post. Session.Advance likewise merges a fatal tick's collision test with the compare-and-set of the flag. No behaviour is lost by this. Once the flag is set, no other thread reads anything between these actions that would make it act differently.
- `handleAction`'s test of the game-over flag and the pause request it may issue form one atomic event. In the source, a game over in between can still leave the request waiting for runners that have already left. Neither variant covers that window.
- The teardown in `resetGame(false)` is left out: setting the old flag, resuming the old barrier, `shutdownNow` and the clock. The model starts every session from `Session.Reset` and does not follow the discarded one.
- Swing is left out: drawing, key bindings, buttons, labels and the text of the status line.
- The `snakes` system property is left out. The snake count is the argument of `Session.Reset`.
- PauseControl.RequestPause: the pause generation and the count are unbounded integers. Java's `int` generation would wrap after 2^31 - 1 pause requests.

=== FILE: pause_controller.dfy ===
/** The cooperative, generation-counted pause barrier shared by every snake
    runner and the controller (PauseController.java).

    Each `synchronized` block of the class is one atomic transition here. A
    blocking `wait()` loop is not a thread: it becomes the predicate its
    waiter needs before it may leave (`MayLeave`, `PauseComplete`). */
module PauseControl {
  import opened Results

  /** The fields guarded by the barrier's lock. `pausedCount` and
      `pauseGeneration` are Java `int`s; the model leaves them unbounded. */
  datatype Barrier = Barrier(
    totalRunners: nat,
    paused: bool,
    pausedCount: int,
    pauseGeneration: int)

  datatype ConfigError = NegativeRunnerCount(totalRunners: int)

  /** The constructor: a negative runner count is rejected and nothing is
      built; otherwise the barrier starts paused at generation 1, or running
      at generation 0, with no acknowledgement counted. */
  function New(totalRunners: int, startPaused: bool): (r: Result<Barrier, ConfigError>)
    ensures r.Failure? <==> totalRunners < 0
    ensures r.Failure? ==> r.error == NegativeRunnerCount(totalRunners)
    ensures r.Success? ==> r.value.totalRunners == totalRunners && r.value.pausedCount == 0
    ensures r.Success? ==> (r.value.paused <==> startPaused)
    ensures r.Success? && startPaused ==> r.value.pauseGeneration == 1
    ensures r.Success? && !startPaused ==> r.value.pauseGeneration == 0
  {
    if totalRunners < 0 then Failure(NegativeRunnerCount(totalRunners))
    else if startPaused then Success(Barrier(totalRunners, true, 0, 1))
    else Success(Barrier(totalRunners, false, 0, 0))
  }

  /** The barrier after an acknowledgement and the generation the caller must
      remember and pass back on its next call. */
  datatype Acked = Acked(barrier: Barrier, generation: int)

  /** The acknowledgement that opens `awaitIfPaused`: a caller that has not yet
      seen the active pause generation is counted once and adopts it. */
  function Ack(b: Barrier, lastSeen: int): (r: Acked)
    ensures r.barrier.totalRunners == b.totalRunners
    ensures r.barrier.paused == b.paused && r.barrier.pauseGeneration == b.pauseGeneration
    ensures b.paused && lastSeen != b.pauseGeneration ==>
      r.barrier.pausedCount == b.pausedCount + 1 && r.generation == b.pauseGeneration
    ensures !(b.paused && lastSeen != b.pauseGeneration) ==> r == Acked(b, lastSeen)
  {
    if b.paused && lastSeen != b.pauseGeneration then
      Acked(b.(pausedCount := b.pausedCount + 1), b.pauseGeneration)
    else
      Acked(b, lastSeen)
  }

  /** Acknowledging again with the generation just returned changes nothing:
      the count is never incremented twice for one caller and generation. */
  lemma AckIsIdempotent(b: Barrier, lastSeen: int)
    ensures var r := Ack(b, lastSeen); Ack(r.barrier, r.generation) == r
  {
  }

  /** The guard of the wait loop in `awaitIfPaused`: its caller may return
      only once the barrier is no longer paused. */
  predicate MayLeave(b: Barrier)
  {
    !b.paused
  }

  /** The exit condition of the wait loop in `requestPauseAndWait`, as written:
      every runner has acknowledged. */
  predicate PauseComplete(b: Barrier)
  {
    b.pausedCount >= b.totalRunners
  }

  /** The exit condition with `paused` also consulted, so that a `resume`
      issued while a pause request waits releases the requester. While the
      barrier is paused it coincides with `PauseComplete`. */
  predicate PauseReleased(b: Barrier)
  {
    !b.paused || PauseComplete(b)
  }

  /** The barrier after the synchronized part of `requestPauseAndWait`, and
      whether the call returns at once instead of entering its wait loop. */
  datatype Requested = Requested(barrier: Barrier, returned: bool)

  /** A pause request: a no-op on a paused barrier; otherwise the barrier is
      paused under a fresh generation, and the caller returns at once only
      when there are no runners or all of them have already acknowledged. */
  function RequestPause(b: Barrier): (r: Requested)
    ensures b.paused ==> r == Requested(b, true)
    ensures !b.paused ==> r.barrier.paused
    ensures !b.paused ==> r.barrier.pauseGeneration == b.pauseGeneration + 1
    ensures !b.paused ==> r.barrier.pausedCount == b.pausedCount
    ensures r.barrier.totalRunners == b.totalRunners
    ensures !b.paused ==> (r.returned <==> b.totalRunners == 0 || PauseComplete(r.barrier))
  {
    if b.paused then Requested(b, true)
    else
      var p := b.(paused := true, pauseGeneration := b.pauseGeneration + 1);
      Requested(p, p.totalRunners == 0 || PauseComplete(p))
  }

  /** `resume`: a no-op unless paused; otherwise unpauses and clears the
      acknowledgement count, keeping the generation. */
  function Resume(b: Barrier): (r: Barrier)
    ensures !b.paused ==> r == b
    ensures !r.paused && r.pausedCount == (if b.paused then 0 else b.pausedCount)
    ensures r.pauseGeneration == b.pauseGeneration && r.totalRunners == b.totalRunners
  {
    if !b.paused then b else b.(paused := false, pausedCount := 0)
  }

  /** A released requester stays released when the barrier is resumed, and
      while the barrier is paused the corrected guard is the written one. */
  lemma ResumeReleasesRequester(b: Barrier)
    ensures PauseReleased(Resume(b))
    ensures b.paused ==> (PauseReleased(b) <==> PauseComplete(b))
  {
  }

  // ---------------------------------------------------------------------
  // Counting acknowledgements against the runners' own generations
  // ---------------------------------------------------------------------

  /** Number of runners whose last adopted generation is `g`. */
  function CountAt(gens: seq<int>, g: int): (n: nat)
    ensures n <= |gens|
    ensures n == |gens| <==> forall i | 0 <= i < |gens| :: gens[i] == g
    ensures n == 0 <==> forall i | 0 <= i < |gens| :: gens[i] != g
  {
    if |gens| == 0 then 0
    else
      assert forall i | 1 <= i < |gens| :: gens[1..][i - 1] == gens[i];
      (if gens[0] == g then 1 else 0) + CountAt(gens[1..], g)
  }

  /** A runner adopting `g` for the first time raises the count by one. */
  lemma {:induction false} CountAtAdopt(gens: seq<int>, i: nat, g: int)
    requires i < |gens| && gens[i] != g
    ensures CountAt(gens[i := g], g) == CountAt(gens, g) + 1
  {
    if i == 0 {
      assert gens[i := g][1..] == gens[1..];
    } else {
      assert gens[i := g][1..] == gens[1..][i - 1 := g];
      CountAtAdopt(gens[1..], i - 1, g);
    }
  }

  /** The barrier invariant, with one remembered generation per runner: no
      runner is ahead of the barrier, and while paused the count is exactly
      the number of runners holding the active generation (zero otherwise). */
  predicate Counted(b: Barrier, gens: seq<int>)
  {
    && |gens| == b.totalRunners
    && (forall i | 0 <= i < |gens| :: gens[i] <= b.pauseGeneration)
    && b.pausedCount == (if b.paused then CountAt(gens, b.pauseGeneration) else 0)
  }

  /** Under the invariant the count never exceeds the number of runners. */
  lemma CountedBounds(b: Barrier, gens: seq<int>)
    requires Counted(b, gens)
    ensures 0 <= b.pausedCount <= b.totalRunners
  {
  }

  /** A pause request waits exactly until every runner has acknowledged the
      active generation: never earlier, and no longer. */
  lemma CompleteIffAllAcked(b: Barrier, gens: seq<int>)
    requires Counted(b, gens) && b.paused
    ensures PauseComplete(b) <==> forall i | 0 <= i < |gens| :: gens[i] == b.pauseGeneration
  {
  }

  /** Runners that all start from generation 0 satisfy the invariant on a
      freshly built barrier, paused or not. */
  lemma NewIsCounted(totalRunners: nat, startPaused: bool)
    ensures New(totalRunners, startPaused).Success?
    ensures Counted(New(totalRunners, startPaused).value, seq(totalRunners, _ => 0))
  {
    var gens := seq(totalRunners, _ => 0);
    if startPaused {
      assert forall i | 0 <= i < |gens| :: gens[i] != 1;
    }
  }

  /** Runner `i` acknowledging with its own remembered generation and storing
      the returned one keeps the invariant. */
  lemma AckKeepsCounted(b: Barrier, gens: seq<int>, i: nat)
    requires Counted(b, gens) && i < |gens|
    ensures var r := Ack(b, gens[i]); Counted(r.barrier, gens[i := r.generation])
  {
    var r := Ack(b, gens[i]);
    if b.paused && gens[i] != b.pauseGeneration {
      CountAtAdopt(gens, i, b.pauseGeneration);
    } else {
      assert gens[i := r.generation] == gens;
    }
  }

  /** A pause request keeps the invariant: the fresh generation is held by no
      runner, and the count was zero while running. */
  lemma RequestKeepsCounted(b: Barrier, gens: seq<int>)
    requires Counted(b, gens)
    ensures Counted(RequestPause(b).barrier, gens)
  {
  }

  /** `resume` keeps the invariant. */
  lemma ResumeKeepsCounted(b: Barrier, gens: seq<int>)
    requires Counted(b, gens)
    ensures Counted(Resume(b), gens)
  {
  }

  // ---------------------------------------------------------------------
  // The barrier under any sequence of calls
  // ---------------------------------------------------------------------

  /** A call on the barrier: runner `runner` acknowledging with the
      generation it remembers, a pause request, or a resume. */
  datatype Op = AckBy(runner: nat) | Request | ResumeAll

  /** The barrier together with each runner's remembered generation. */
  datatype Fleet = Fleet(barrier: Barrier, lastSeen: seq<int>)

  /** One call; an acknowledgement by an unknown runner changes nothing. */
  function Apply(f: Fleet, op: Op): (g: Fleet)
    ensures |g.lastSeen| == |f.lastSeen|
    ensures g.barrier.totalRunners == f.barrier.totalRunners
    ensures g.barrier.pauseGeneration >= f.barrier.pauseGeneration
  {
    match op
    case AckBy(i) =>
      if i < |f.lastSeen| then
        var r := Ack(f.barrier, f.lastSeen[i]);
        Fleet(r.barrier, f.lastSeen[i := r.generation])
      else f
    case Request => Fleet(RequestPause(f.barrier).barrier, f.lastSeen)
    case ResumeAll => Fleet(Resume(f.barrier), f.lastSeen)
  }

  /** The calls of `ops`, in order. */
  function Run(f: Fleet, ops: seq<Op>): Fleet
    decreases |ops|
  {
    if |ops| == 0 then f else Run(Apply(f, ops[0]), ops[1..])
  }

  /** Over any sequence of calls the invariant holds, so acknowledgements are
      never double-counted and the count stays within the runner count. */
  lemma {:induction false} RunKeepsCounted(f: Fleet, ops: seq<Op>)
    requires Counted(f.barrier, f.lastSeen)
    ensures Counted(Run(f, ops).barrier, Run(f, ops).lastSeen)
    ensures 0 <= Run(f, ops).barrier.pausedCount <= Run(f, ops).barrier.totalRunners
    decreases |ops|
  {
    if |ops| == 0 {
      CountedBounds(f.barrier, f.lastSeen);
    } else {
      match ops[0] {
        case AckBy(i) =>
          if i < |f.lastSeen| {
            AckKeepsCounted(f.barrier, f.lastSeen, i);
          }
        case Request => RequestKeepsCounted(f.barrier, f.lastSeen);
        case ResumeAll => ResumeKeepsCounted(f.barrier, f.lastSeen);
      }
      RunKeepsCounted(Apply(f, ops[0]), ops[1..]);
    }
  }

  /** The pause generation never decreases over any sequence of calls. */
  lemma {:induction false} RunNeverLowersGeneration(f: Fleet, ops: seq<Op>)
    ensures Run(f, ops).barrier.pauseGeneration >= f.barrier.pauseGeneration
    ensures Run(f, ops).barrier.totalRunners == f.barrier.totalRunners
    decreases |ops|
  {
    if |ops| > 0 {
      RunNeverLowersGeneration(Apply(f, ops[0]), ops[1..]);
    }
  }
}

=== FILE: results.dfy ===
/** An optional value and a success-or-error result, the latter for a
    constructor that may reject its arguments. */
module Results {

  datatype Option<+T> = None | Some(value: T)

  datatype Result<+T, +E> = Success(value: T) | Failure(error: E)
}

=== FILE: session.dfy ===
/** One game session as an interleaving of atomic steps: every runner's loop
    in `SnakeRunner.run`, the pause barrier they share, the shared game-over
    flag, and the window's event thread (`handleAction`, the blocking part of
    `pauseGame`, and the deferred half of `handleGameOver`).

    A runner's position in its loop is a program counter. Most events are
    one step that Java executes without interference: a `synchronized`
    block, an atomic read or compare-and-set, or a stretch of code touching
    only the runner's own state. A few events merge several such steps
    whose intermediate states no other thread can observe or act on
    differently. These are the board step with the collision test and the
    compare-and-set, the three actions of the game-over callback, and the
    action's flag test with its pause request. An event that is not enabled
    leaves the world as it is, so any sequence of events is a run.

    `Variant` selects how the barrier's two wait loops behave: `AsWritten`
    follows PauseController.java; `Corrected` re-acknowledges a pause that
    starts while a runner is still waiting, and lets a pause request return
    once the barrier has been resumed. */
module Session {
  import opened Results
  import PauseControl
  import SnakeRunner
  import SnakeApp

  type Position = SnakeRunner.Position

  /** Where a runner's thread is in its loop. */
  datatype Pc =
    | Top        // about to test the loop condition (`!gameOver.get()`)
    | Entering   // about to call `awaitIfPaused` with its generation
    | Parked     // blocked in the wait loop of `awaitIfPaused`
    | Resumed    // returned from `awaitIfPaused`, about to re-test the flag
    | Stepping   // about to turn and step on the board
    | Notifying  // won the trigger, about to run the game-over callback
    | Done       // left the loop

  /** A runner: its snake's index, the pause generation it remembers, its
      turbo counter, and where it is. */
  datatype Runner = Runner(index: nat, gen: int, turbo: nat, pc: Pc)

  /** The window's event thread: free, or blocked in `requestPauseAndWait`. */
  datatype Ui = Idle | AwaitingPause

  datatype World = World(
    barrier: PauseControl.Barrier,
    gameOver: bool,
    runners: seq<Runner>,
    bodies: seq<seq<Position>>,  // each snake's cells, head first
    state: SnakeApp.GameState,
    ui: Ui,
    worst: int,                  // the first-loser latch, -1 when none
    stopPending: bool,           // `handleGameOver` posted its UI half
    notified: seq<nat>)          // every invocation of the game-over callback

  datatype Variant = AsWritten | Corrected

  datatype Event =
    | LoopHead(runner: nat)
    | AwaitEnter(runner: nat)
    | AwaitWake(runner: nat)
    | AfterWait(runner: nat)
    | Step(runner: nat, result: SnakeRunner.MoveResult, body: seq<Position>)
    | GameOverCallback(runner: nat)
    | Action
    | PauseReturns
    | DeferredStop

  predicate At(w: World, i: nat, pc: Pc)
  {
    i < |w.runners| && w.runners[i].pc == pc
  }

  /** The generations the runners remember, in roster order. */
  function Gens(rs: seq<Runner>): (g: seq<int>)
    ensures |g| == |rs| && forall i | 0 <= i < |rs| :: g[i] == rs[i].gen
  {
    seq(|rs|, i requires 0 <= i < |rs| => rs[i].gen)
  }

  /** Replaces runner `i`'s program counter. */
  function SetPc(rs: seq<Runner>, i: nat, pc: Pc): (rs': seq<Runner>)
    requires i < |rs|
    ensures |rs'| == |rs| && Gens(rs') == Gens(rs)
    ensures rs'[i].pc == pc
  {
    rs[i := rs[i].(pc := pc)]
  }

  /** A step of runner `i` leaves the event thread and every other runner
      as they are. */
  predicate RunnerFrame(w: World, w': World, i: nat)
  {
    && w'.ui == w.ui && w'.state == w.state
    && |w'.runners| == |w.runners|
    && (forall j | 0 <= j < |w.runners| && j != i :: w'.runners[j] == w.runners[j])
  }

  /** The loser latch, the posted stop and the callback record are as they
      were. */
  predicate Quiet(w: World, w': World)
  {
    w'.worst == w.worst && w'.stopPending == w.stopPending && w'.notified == w.notified
  }

  /** Runner `i` keeps its snake's index and its turbo counter. */
  predicate SameSnake(w: World, w': World, i: nat)
    requires i < |w.runners| && i < |w'.runners|
  {
    w'.runners[i].index == w.runners[i].index && w'.runners[i].turbo == w.runners[i].turbo
  }

  // ---------------------------------------------------------------------
  // Runner steps
  // ---------------------------------------------------------------------

  /** The loop condition: a runner that sees the flag set leaves without
      stepping; otherwise it goes on to the barrier. */
  function Head(w: World, i: nat): (w': World)
    requires At(w, i, Top)
    ensures |w'.runners| == |w.runners|
    ensures w'.runners[i].pc == (if w.gameOver then Done else Entering)
    ensures w'.barrier == w.barrier && w'.bodies == w.bodies && w'.gameOver == w.gameOver
    ensures RunnerFrame(w, w', i) && Quiet(w, w')
    ensures SameSnake(w, w', i) && w'.runners[i].gen == w.runners[i].gen
  {
    w.(runners := SetPc(w.runners, i, if w.gameOver then Done else Entering))
  }

  /** The synchronized block of `awaitIfPaused` up to its wait loop: the
      runner acknowledges with the generation it remembers and keeps the one
      returned; it blocks exactly when the barrier is paused. */
  function Enter(w: World, i: nat): (w': World)
    requires At(w, i, Entering)
    ensures |w'.runners| == |w.runners|
    ensures w'.runners[i].gen == PauseControl.Ack(w.barrier, w.runners[i].gen).generation
    ensures w'.barrier == PauseControl.Ack(w.barrier, w.runners[i].gen).barrier
    ensures w.barrier.paused ==> w'.runners[i].gen == w.barrier.pauseGeneration
    ensures w'.runners[i].pc == (if w.barrier.paused then Parked else Resumed)
    ensures w'.bodies == w.bodies && w'.gameOver == w.gameOver
    ensures RunnerFrame(w, w', i) && Quiet(w, w') && SameSnake(w, w', i)
  {
    var r := w.runners[i];
    var a := PauseControl.Ack(w.barrier, r.gen);
    var pc := if a.barrier.paused then Parked else Resumed;
    w.(barrier := a.barrier, runners := w.runners[i := r.(gen := a.generation, pc := pc)])
  }

  /** Whether a runner blocked in `awaitIfPaused` can take a step: leave once
      the barrier is not paused or, in the corrected variant, acknowledge a
      pause generation newer than the one it remembers. */
  predicate CanWake(v: Variant, w: World, i: nat)
  {
    At(w, i, Parked) &&
    (PauseControl.MayLeave(w.barrier) ||
     (v == Corrected && w.runners[i].gen != w.barrier.pauseGeneration))
  }

  /** A step of a blocked runner: it returns only when the barrier is not
      paused; otherwise (corrected variant) it acknowledges the new pause and
      stays blocked. */
  function Wake(v: Variant, w: World, i: nat): (w': World)
    requires CanWake(v, w, i)
    ensures |w'.runners| == |w.runners|
    ensures w'.runners[i].pc == Resumed <==> !w.barrier.paused
    ensures w'.runners[i].pc == Resumed || w'.runners[i].pc == Parked
    ensures w.barrier.paused ==>
      w'.runners[i].gen == w.barrier.pauseGeneration &&
      w'.barrier.pausedCount == w.barrier.pausedCount + 1
    ensures w'.barrier == PauseControl.Ack(w.barrier, w.runners[i].gen).barrier
    ensures w'.runners[i].gen == PauseControl.Ack(w.barrier, w.runners[i].gen).generation
    ensures w'.bodies == w.bodies && w'.gameOver == w.gameOver
    ensures RunnerFrame(w, w', i) && Quiet(w, w') && SameSnake(w, w', i)
  {
    if PauseControl.MayLeave(w.barrier) then w.(runners := SetPc(w.runners, i, Resumed))
    else
      var r := w.runners[i];
      var a := PauseControl.Ack(w.barrier, r.gen);
      w.(barrier := a.barrier, runners := w.runners[i := r.(gen := a.generation)])
  }

  /** The re-test of the flag after the pause wait: a runner that sees it set
      leaves without stepping. */
  function Recheck(w: World, i: nat): (w': World)
    requires At(w, i, Resumed)
    ensures |w'.runners| == |w.runners|
    ensures w'.runners[i].pc == (if w.gameOver then Done else Stepping)
    ensures w'.barrier == w.barrier && w'.bodies == w.bodies && w'.gameOver == w.gameOver
    ensures RunnerFrame(w, w', i) && Quiet(w, w')
    ensures SameSnake(w, w', i) && w'.runners[i].gen == w.runners[i].gen
  {
    w.(runners := SetPc(w.runners, i, if w.gameOver then Done else Stepping))
  }

  /** Whether the tick with step result `res`, after which the runner's
      snake is `body`, ends the loop. */
  predicate Fatal(w: World, i: nat, res: SnakeRunner.MoveResult, body: seq<Position>)
    requires i < |w.bodies| && |body| > 0
  {
    res == SnakeRunner.HitObstacle ||
    SnakeRunner.CollidesWithAnySnake(w.bodies[i := body], i, body[0])
  }

  /** One tick past the pause wait: the board moves the snake to `body` with
      result `res` (the random turn happens inside this choice); an obstacle
      or a collision of the new head triggers the game over and ends the
      loop, the trigger's winner going on to the callback; otherwise the
      turbo counter is updated and the runner loops. */
  function Advance(w: World, i: nat, res: SnakeRunner.MoveResult, body: seq<Position>): (w': World)
    requires At(w, i, Stepping) && i < |w.bodies| && |body| > 0
    ensures |w'.runners| == |w.runners|
    ensures w'.bodies == w.bodies[i := body] && w'.barrier == w.barrier
    ensures w'.runners[i].gen == w.runners[i].gen && w'.runners[i].index == w.runners[i].index
    ensures forall j | 0 <= j < |w.runners| && j != i :: w'.runners[j] == w.runners[j]
    ensures w'.runners[i].pc == Top <==> !Fatal(w, i, res, body)
    ensures w'.runners[i].pc == Notifying <==> Fatal(w, i, res, body) && !w.gameOver
    ensures w'.runners[i].pc == Done <==> Fatal(w, i, res, body) && w.gameOver
    ensures w'.gameOver <==> w.gameOver || Fatal(w, i, res, body)
    ensures w'.notified ==
      w.notified + (if Fatal(w, i, res, body) && !w.gameOver then [w.runners[i].index] else [])
    ensures !Fatal(w, i, res, body) && res == SnakeRunner.AteTurbo ==>
      w'.runners[i].turbo == SnakeRunner.TurboTicksOnPickup - 1
    ensures !Fatal(w, i, res, body) && res != SnakeRunner.AteTurbo ==>
      w'.runners[i].turbo == SnakeRunner.Decay(w.runners[i].turbo)
    ensures RunnerFrame(w, w', i) && w'.worst == w.worst && w'.stopPending == w.stopPending
  {
    var r := w.runners[i];
    var bodies := w.bodies[i := body];
    var collides := res != SnakeRunner.HitObstacle && SnakeRunner.CollidesWithAnySnake(bodies, i, body[0]);
    match SnakeRunner.Tick(r.turbo, res, collides)
    case Continue(_, t) =>
      w.(bodies := bodies, runners := w.runners[i := r.(turbo := t, pc := Top)])
    case Fatal =>
      var t := SnakeRunner.TriggerGameOver(w.gameOver, r.index);
      var turbo := SnakeRunner.TurboAfterStep(r.turbo, res);
      match t.notified
      case Some(k) =>
        w.(bodies := bodies, gameOver := t.gameOver, notified := w.notified + [k],
           runners := w.runners[i := r.(turbo := turbo, pc := Notifying)])
      case None =>
        w.(bodies := bodies, gameOver := t.gameOver,
           runners := w.runners[i := r.(turbo := turbo, pc := Done)])
  }

  /** The synchronous half of `handleGameOver`, on the winning runner's
      thread: latch the loser, resume the barrier, post the UI half. */
  function Callback(w: World, i: nat): (w': World)
    requires At(w, i, Notifying)
    ensures |w'.runners| == |w.runners|
    ensures !w'.barrier.paused && PauseControl.PauseReleased(w'.barrier)
    ensures w'.barrier.pauseGeneration == w.barrier.pauseGeneration
    ensures w'.worst == SnakeApp.ReportLoser(w.worst, w.runners[i].index)
    ensures w'.stopPending && w'.runners[i].pc == Done
    ensures w'.gameOver == w.gameOver && w'.notified == w.notified
    ensures w'.barrier == PauseControl.Resume(w.barrier) && w'.bodies == w.bodies
    ensures RunnerFrame(w, w', i) && SameSnake(w, w', i) && w'.runners[i].gen == w.runners[i].gen
  {
    w.(worst := SnakeApp.ReportLoser(w.worst, w.runners[i].index),
       barrier := PauseControl.Resume(w.barrier),
       stopPending := true,
       runners := SetPc(w.runners, i, Done))
  }

  // ---------------------------------------------------------------------
  // Event-thread steps
  // ---------------------------------------------------------------------

  /** `handleAction` on a free event thread. Starting or resuming resumes the
      barrier; pausing requests a pause and blocks the thread unless the
      request returns at once. */
  function Act(w: World): (w': World)
    requires w.ui == Idle
    ensures w.gameOver ==> w' == w
    ensures !w.gameOver ==>
      w'.state == SnakeApp.StateAfter(w.state, SnakeApp.HandleAction(false, w.state))
    ensures w'.state == SnakeApp.Running && w.state != SnakeApp.Running ==>
      w'.barrier == PauseControl.Resume(w.barrier)
    ensures w'.state == SnakeApp.Paused && w.state == SnakeApp.Running ==>
      w'.barrier == PauseControl.RequestPause(w.barrier).barrier &&
      (w'.ui == AwaitingPause <==> !PauseControl.RequestPause(w.barrier).returned)
    ensures w'.ui == AwaitingPause ==> !w.gameOver && w'.barrier.paused
    ensures w'.runners == w.runners && w'.bodies == w.bodies && w'.gameOver == w.gameOver
    ensures Quiet(w, w')
  {
    match SnakeApp.HandleAction(w.gameOver, w.state)
    case Ignore => w
    case StartGame => w.(state := SnakeApp.Running, barrier := PauseControl.Resume(w.barrier))
    case ResumeGame => w.(state := SnakeApp.Running, barrier := PauseControl.Resume(w.barrier))
    case PauseGame =>
      var req := PauseControl.RequestPause(w.barrier);
      w.(state := SnakeApp.Paused, barrier := req.barrier,
         ui := if req.returned then Idle else AwaitingPause)
  }

  /** Whether a blocked pause request may return. */
  predicate PauseMayReturn(v: Variant, b: PauseControl.Barrier)
  {
    if v == AsWritten then PauseControl.PauseComplete(b) else PauseControl.PauseReleased(b)
  }

  predicate Enabled(v: Variant, w: World, e: Event)
  {
    match e
    case LoopHead(i) => At(w, i, Top)
    case AwaitEnter(i) => At(w, i, Entering)
    case AwaitWake(i) => CanWake(v, w, i)
    case AfterWait(i) => At(w, i, Resumed)
    case Step(i, res, body) => At(w, i, Stepping) && i < |w.bodies| && |body| > 0
    case GameOverCallback(i) => At(w, i, Notifying)
    case Action => w.ui == Idle
    case PauseReturns => w.ui == AwaitingPause && PauseMayReturn(v, w.barrier)
    case DeferredStop => w.ui == Idle && w.stopPending
  }

  /** Events taken by a runner's thread, as opposed to the event thread. */
  predicate RunnerEvent(e: Event)
  {
    !(e.Action? || e.PauseReturns? || e.DeferredStop?)
  }

  /** One event. A disabled one changes nothing. The pause generation never
      decreases, the callback record only grows, the flag is never cleared,
      a runner that has left its loop takes no further step, and a snake is
      moved only by its own runner's board step. A runner's event leaves the
      event thread, the game state and every other runner as they are; only
      the game-over callback touches the loser latch. The half of the game-over
      callback posted to the event thread stops the game once that thread
      is free. */
  function Next(v: Variant, w: World, e: Event): (w': World)
    ensures !Enabled(v, w, e) ==> w' == w
    ensures w'.barrier.pauseGeneration >= w.barrier.pauseGeneration
    ensures w'.barrier.totalRunners == w.barrier.totalRunners
    ensures |w'.runners| == |w.runners| && |w'.bodies| == |w.bodies|
    ensures |w.notified| <= |w'.notified| && w'.notified[..|w.notified|] == w.notified
    ensures w.gameOver ==> w'.gameOver
    ensures forall j | 0 <= j < |w.runners| && w.runners[j].pc == Done :: w'.runners[j] == w.runners[j]
    ensures forall j | 0 <= j < |w.bodies| && w'.bodies[j] != w.bodies[j] ::
      e.Step? && e.runner == j && At(w, j, Stepping)
    ensures e.DeferredStop? && Enabled(v, w, e) ==> w'.state == SnakeApp.Stopped && !w'.stopPending
    ensures e.PauseReturns? && Enabled(v, w, e) ==> w'.ui == Idle
    ensures e.PauseReturns? || e.DeferredStop? ==> w'.barrier == w.barrier
    ensures e.PauseReturns? ==> w'.state == w.state
    ensures e.DeferredStop? ==> w'.ui == w.ui
    ensures RunnerEvent(e) ==> RunnerFrame(w, w', e.runner)
    ensures !e.GameOverCallback? ==> w'.worst == w.worst
    ensures !e.GameOverCallback? && !e.DeferredStop? ==> w'.stopPending == w.stopPending
    ensures !RunnerEvent(e) ==>
      w'.runners == w.runners && w'.bodies == w.bodies &&
      w'.gameOver == w.gameOver && w'.notified == w.notified
  {
    if !Enabled(v, w, e) then w
    else
      match e
      case LoopHead(i) => Head(w, i)
      case AwaitEnter(i) => Enter(w, i)
      case AwaitWake(i) => Wake(v, w, i)
      case AfterWait(i) => Recheck(w, i)
      case Step(i, res, body) => Advance(w, i, res, body)
      case GameOverCallback(i) => Callback(w, i)
      case Action => Act(w)
      case PauseReturns => w.(ui := Idle)
      case DeferredStop => w.(state := SnakeApp.Stopped, stopPending := false)
  }

  /** The events of `es`, in order. */
  function Run(v: Variant, w: World, es: seq<Event>): World
    decreases |es|
  {
    if |es| == 0 then w else Run(v, Next(v, w, es[0]), es[1..])
  }

  // ---------------------------------------------------------------------
  // A new session
  // ---------------------------------------------------------------------

  /** `resetGame` for `n` requested snakes and `numDirs` directions: one snake
      per spawn, created on its spawn cell; a barrier sized to the snake
      count that starts paused; one runner per snake with that snake's index,
      starting from generation 0; the flag clear, no loser, and the game
      stopped. */
  function Reset(n: int, numDirs: nat): (w: World)
    requires numDirs > 0
    ensures var count := if n < 0 then 0 else n;
      |w.runners| == |w.bodies| == count == w.barrier.totalRunners
    ensures w.barrier.paused && w.barrier.pauseGeneration == 1 && w.barrier.pausedCount == 0
    ensures forall i | 0 <= i < |w.runners| :: w.runners[i] == Runner(i, 0, 0, Top)
    ensures forall i | 0 <= i < |w.bodies| ::
      var s := SnakeApp.SpawnOf(i, SnakeApp.BoardWidth, SnakeApp.BoardHeight, numDirs);
      w.bodies[i] == [SnakeRunner.Position(s.x, s.y)]
    ensures !w.gameOver && w.worst == -1 && w.notified == [] && !w.stopPending
    ensures w.state == SnakeApp.Stopped && w.ui == Idle
  {
    var spawns := SnakeApp.Spawns(n, SnakeApp.BoardWidth, SnakeApp.BoardHeight, numDirs);
    var count := |spawns|;
    var barrier := PauseControl.New(count, true).value;
    World(
      barrier, false,
      seq(count, (i: nat) => Runner(i, 0, 0, Top)),
      seq(count, i requires 0 <= i < count => [SnakeRunner.Position(spawns[i].x, spawns[i].y)]),
      SnakeApp.Stopped, Idle, -1, false, [])
  }

  // ---------------------------------------------------------------------
  // The session invariant
  // ---------------------------------------------------------------------

  /** One runner and one snake per barrier slot, each runner at its index. */
  predicate Shaped(w: World)
  {
    && |w.runners| == |w.bodies| == w.barrier.totalRunners
    && (forall i | 0 <= i < |w.runners| :: w.runners[i].index == i)
  }

  /** The game-over bookkeeping: the callback ran at most once, exactly when
      the flag is set, for the runner now notifying (if any); a runner only
      leaves its loop once the flag is set; the loser latch holds nothing or
      the notified index. */
  predicate GameOverSettled(w: World)
  {
    && |w.notified| <= 1
    && (w.gameOver <==> |w.notified| == 1)
    && (forall i | 0 <= i < |w.runners| :: w.runners[i].pc == Notifying ==> w.notified == [i])
    && (forall i | 0 <= i < |w.runners| :: w.runners[i].pc == Done ==> w.gameOver)
    && (w.stopPending ==> w.gameOver)
    && (w.worst == -1 || (|w.notified| == 1 && w.worst == w.notified[0]))
  }

  /** A pause request still blocked on a paused barrier after the flag was
      set has the winner's callback, which resumes the barrier, still ahead. */
  predicate RequesterCovered(w: World)
  {
    w.ui == AwaitingPause && w.barrier.paused && w.gameOver ==>
      exists i | 0 <= i < |w.runners| :: w.runners[i].pc == Notifying
  }

  /** A pause holds the runners: while the barrier is paused, a runner
      holding the active generation is blocked in the barrier; a running
      game has the barrier open; and a pause the event thread has finished
      waiting for is complete. */
  predicate PauseHolds(w: World)
  {
    && (forall i | 0 <= i < |w.runners| ::
          w.barrier.paused && w.runners[i].gen == w.barrier.pauseGeneration ==>
          w.runners[i].pc == Parked)
    && (w.state == SnakeApp.Running ==> !w.barrier.paused)
    && (w.state == SnakeApp.Paused && w.ui == Idle && w.barrier.paused ==>
          PauseControl.PauseComplete(w.barrier))
  }

  predicate Inv(w: World)
  {
    && Shaped(w)
    && PauseControl.Counted(w.barrier, Gens(w.runners))
    && GameOverSettled(w)
    && RequesterCovered(w)
    && (w.ui == AwaitingPause ==> w.state == SnakeApp.Paused)
    && PauseHolds(w)
  }

  /** A new session satisfies the invariant. */
  lemma ResetInv(n: int, numDirs: nat)
    requires numDirs > 0
    ensures Inv(Reset(n, numDirs))
  {
    var w := Reset(n, numDirs);
    assert Gens(w.runners) == seq(|w.runners|, _ => 0);
    PauseControl.NewIsCounted(|w.runners|, true);
  }

  lemma GensAdopt(rs: seq<Runner>, i: nat, r: Runner)
    requires i < |rs|
    ensures Gens(rs[i := r]) == Gens(rs)[i := r.gen]
  {
  }

  /** Every event keeps the invariant, in either variant. */
  lemma NextKeepsInv(v: Variant, w: World, e: Event)
    requires Inv(w)
    ensures Inv(Next(v, w, e))
  {
    if Enabled(v, w, e) {
      match e {
        case LoopHead(i) => HeadKeepsInv(w, i);
        case AwaitEnter(i) => EnterKeepsInv(w, i);
        case AwaitWake(i) => WakeKeepsInv(v, w, i);
        case AfterWait(i) => RecheckKeepsInv(w, i);
        case Step(i, res, body) => AdvanceKeepsInv(w, i, res, body);
        case GameOverCallback(i) => CallbackKeepsInv(w, i);
        case Action => ActKeepsInv(w);
        case PauseReturns =>
        case DeferredStop =>
      }
    }
  }

  lemma HeadKeepsInv(w: World, i: nat)
    requires Inv(w) && At(w, i, Top)
    ensures Inv(Head(w, i))
  {
  }

  lemma RecheckKeepsInv(w: World, i: nat)
    requires Inv(w) && At(w, i, Resumed)
    ensures Inv(Recheck(w, i))
  {
  }

  lemma EnterKeepsInv(w: World, i: nat)
    requires Inv(w) && At(w, i, Entering)
    ensures Inv(Enter(w, i))
  {
    var w' := Enter(w, i);
    PauseControl.AckKeepsCounted(w.barrier, Gens(w.runners), i);
    GensAdopt(w.runners, i, w'.runners[i]);
  }

  lemma WakeKeepsInv(v: Variant, w: World, i: nat)
    requires Inv(w) && CanWake(v, w, i)
    ensures Inv(Wake(v, w, i))
  {
    if !PauseControl.MayLeave(w.barrier) {
      var w' := Wake(v, w, i);
      PauseControl.AckKeepsCounted(w.barrier, Gens(w.runners), i);
      GensAdopt(w.runners, i, w'.runners[i]);
    }
  }

  lemma AdvanceKeepsInv(w: World, i: nat, res: SnakeRunner.MoveResult, body: seq<Position>)
    requires Inv(w) && At(w, i, Stepping) && i < |w.bodies| && |body| > 0
    ensures Inv(Advance(w, i, res, body))
  {
    var w' := Advance(w, i, res, body);
    GensAdopt(w.runners, i, w'.runners[i]);
    assert w.runners[i := w'.runners[i]] == w'.runners;
    assert Gens(w.runners)[i := w.runners[i].gen] == Gens(w.runners);
    AdvanceKeepsSettled(w, i, res, body);
  }

  lemma CallbackKeepsInv(w: World, i: nat)
    requires Inv(w) && At(w, i, Notifying)
    ensures Inv(Callback(w, i))
  {
    PauseControl.ResumeKeepsCounted(w.barrier, Gens(w.runners));
  }

  lemma ActKeepsInv(w: World)
    requires Inv(w) && w.ui == Idle
    ensures Inv(Act(w))
  {
    PauseControl.ResumeKeepsCounted(w.barrier, Gens(w.runners));
    PauseControl.RequestKeepsCounted(w.barrier, Gens(w.runners));
  }

  /** A board step keeps the game-over bookkeeping and the requester's
      cover. */
  lemma AdvanceKeepsSettled(w: World, i: nat, res: SnakeRunner.MoveResult, body: seq<Position>)
    requires Inv(w) && At(w, i, Stepping) && i < |w.bodies| && |body| > 0
    ensures GameOverSettled(Advance(w, i, res, body))
    ensures RequesterCovered(Advance(w, i, res, body))
  {
    var w' := Advance(w, i, res, body);
    if w'.ui == AwaitingPause && w'.barrier.paused && w'.gameOver {
      if w.gameOver {
        var j :| 0 <= j < |w.runners| && w.runners[j].pc == Notifying;
        assert w'.runners[j].pc == Notifying;
      } else {
        assert w'.runners[i].pc == Notifying;
      }
    }
  }

  /** Every run keeps the invariant. */
  lemma {:induction false} RunKeepsInv(v: Variant, w: World, es: seq<Event>)
    requires Inv(w)
    ensures Inv(Run(v, w, es))
    decreases |es|
  {
    if |es| > 0 {
      NextKeepsInv(v, w, es[0]);
      RunKeepsInv(v, Next(v, w, es[0]), es[1..]);
    }
  }

  /** In every session, whatever the interleaving: the callback has run at
      most once, and exactly when the flag is set; the loser latch holds the
      notified index or nothing; acknowledgements are counted once per runner
      and generation, so the count never exceeds the number of runners; and
      while the barrier is paused, it is complete exactly when every runner
      holds the active generation. (In the corrected variant a request may
      also return because the barrier was resumed.) A running game has the
      barrier open, and once a pause request has returned on a barrier that
      is still paused, every runner is blocked in the barrier. */
  lemma SessionSafety(v: Variant, n: int, numDirs: nat, es: seq<Event>)
    requires numDirs > 0
    ensures var w := Run(v, Reset(n, numDirs), es);
      && |w.notified| <= 1
      && (w.gameOver <==> |w.notified| == 1)
      && (w.worst == -1 || (|w.notified| == 1 && w.worst == w.notified[0]))
      && 0 <= w.barrier.pausedCount <= w.barrier.totalRunners
      && (w.barrier.paused ==>
            (PauseControl.PauseComplete(w.barrier) <==>
             forall i | 0 <= i < |w.runners| :: w.runners[i].gen == w.barrier.pauseGeneration))
      && (w.state == SnakeApp.Running ==> !w.barrier.paused)
      && (w.state == SnakeApp.Paused && w.ui == Idle && w.barrier.paused ==>
            forall i | 0 <= i < |w.runners| :: w.runners[i].pc == Parked)
  {
    ResetInv(n, numDirs);
    RunKeepsInv(v, Reset(n, numDirs), es);
    var w := Run(v, Reset(n, numDirs), es);
    PauseControl.CountedBounds(w.barrier, Gens(w.runners));
    if w.barrier.paused {
      PauseControl.CompleteIffAllAcked(w.barrier, Gens(w.runners));
    }
  }

  // ---------------------------------------------------------------------
  // Progress of a pause request
  // ---------------------------------------------------------------------

  /** Nothing can happen any more: every event leaves the world as it is. */
  ghost predicate Stuck(v: Variant, w: World)
  {
    forall e :: Next(v, w, e) == w
  }

  /** In the corrected variant a blocked pause request never deadlocks the
      session: in every state of the invariant some event still changes the
      world, and it is the request returning, the winner's callback
      (which resumes the barrier), or a step of a live runner that has not
      yet acknowledged the active pause. This rests on the action's test of
      the game-over flag and its pause request being one step: a game over
      between the two is not covered, in either variant. */
  lemma PauseRequestNeverHangs(w: World)
    requires Inv(w) && w.ui == AwaitingPause
    ensures !Stuck(Corrected, w)
    ensures !PauseControl.PauseReleased(w.barrier) ==>
      exists i | 0 <= i < |w.runners| ::
        w.runners[i].pc == Notifying ||
        (!w.gameOver && w.runners[i].pc != Done && w.runners[i].gen != w.barrier.pauseGeneration)
  {
    if PauseControl.PauseReleased(w.barrier) {
      assert Next(Corrected, w, PauseReturns) != w;
    } else if w.gameOver {
      var i :| 0 <= i < |w.runners| && w.runners[i].pc == Notifying;
      assert Next(Corrected, w, GameOverCallback(i)).runners[i].pc == Done;
    } else {
      var gens := Gens(w.runners);
      PauseControl.CompleteIffAllAcked(w.barrier, gens);
      var i :| 0 <= i < |gens| && gens[i] != w.barrier.pauseGeneration;
      assert w.runners[i].pc != Done && w.runners[i].pc != Notifying;
      var e := LiveStep(w, i);
      assert Next(Corrected, w, e) != w;
    }
  }

  /** The step a live runner that has not acknowledged the active pause can
      take, while the flag is clear and the barrier paused. */
  function LiveStep(w: World, i: nat): (e: Event)
    requires Inv(w) && i < |w.runners| && !w.gameOver && w.barrier.paused
    requires w.runners[i].pc != Done && w.runners[i].pc != Notifying
    requires w.runners[i].gen != w.barrier.pauseGeneration
    ensures Next(Corrected, w, e) != w
  {
    match w.runners[i].pc
    case Top =>
      assert Next(Corrected, w, LoopHead(i)).runners[i].pc == Entering;
      LoopHead(i)
    case Entering =>
      assert Next(Corrected, w, AwaitEnter(i)).runners[i].pc == Parked;
      AwaitEnter(i)
    case Parked =>
      assert Next(Corrected, w, AwaitWake(i)).runners[i].gen == w.barrier.pauseGeneration;
      AwaitWake(i)
    case Resumed =>
      assert Next(Corrected, w, AfterWait(i)).runners[i].pc == Stepping;
      AfterWait(i)
    case Stepping =>
      var e := Step(i, SnakeRunner.Moved, [SnakeRunner.Position(0, 0)]);
      assert Next(Corrected, w, e).runners[i].pc != Stepping;
      e
  }

  // ---------------------------------------------------------------------
  // The two ways the written barrier strands a pause request
  // ---------------------------------------------------------------------

  /** A one-snake session whose runner has parked on the initial pause. */
  function ParkedAtStart(v: Variant): World
  {
    Next(v, Next(v, Reset(1, 4), LoopHead(0)), AwaitEnter(0))
  }

  const Start: SnakeRunner.Position := SnakeRunner.Position(2, 2)

  lemma ParkedAtStartState(v: Variant)
    ensures ParkedAtStart(v) == World(PauseControl.Barrier(1, true, 1, 1), false,
      [Runner(0, 1, 0, Parked)], [[Start]], SnakeApp.Stopped, Idle, -1, false, [])
  {
    var w0 := Reset(1, 4);
    assert w0 == World(PauseControl.Barrier(1, true, 0, 1), false,
      [Runner(0, 0, 0, Top)], [[Start]], SnakeApp.Stopped, Idle, -1, false, []);
    var w1 := Next(v, w0, LoopHead(0));
    assert w1 == w0.(runners := [Runner(0, 0, 0, Entering)]);
  }

  /** From there the player started the game and paused it again before the
      runner's thread woke. */
  function RepausedBeforeWake(v: Variant): World
  {
    Next(v, Next(v, ParkedAtStart(v), Action), Action)
  }

  lemma RepausedBeforeWakeState(v: Variant)
    ensures RepausedBeforeWake(v) == World(PauseControl.Barrier(1, true, 0, 2), false,
      [Runner(0, 1, 0, Parked)], [[Start]], SnakeApp.Paused, AwaitingPause, -1, false, [])
  {
    ParkedAtStartState(v);
    var w3 := Next(v, ParkedAtStart(v), Action);
    assert w3 == World(PauseControl.Barrier(1, false, 0, 1), false,
      [Runner(0, 1, 0, Parked)], [[Start]], SnakeApp.Running, Idle, -1, false, []);
  }

  /** As written, that session is deadlocked: the runner stays in the wait
      loop of `awaitIfPaused` without acknowledging the new generation, and
      the event thread waits in `requestPauseAndWait` for an acknowledgement
      that never comes. */
  lemma RepauseBeforeWakeDeadlocks()
    ensures RepausedBeforeWake(AsWritten).ui == AwaitingPause
    ensures Stuck(AsWritten, RepausedBeforeWake(AsWritten))
  {
    RepausedBeforeWakeState(AsWritten);
    var w := RepausedBeforeWake(AsWritten);
    forall e
      ensures Next(AsWritten, w, e) == w
    {
      assert !Enabled(AsWritten, w, e);
    }
  }

  /** From the parked start, the player started the game; the runner woke
      and was mid-tick when the player paused; it then hit an obstacle and
      ran the game-over callback, which resumed the barrier. */
  function ResumedDuringRequest(v: Variant): World
  {
    var w3 := Next(v, ParkedAtStart(v), Action);
    var w4 := Next(v, w3, AwaitWake(0));
    var w5 := Next(v, w4, AfterWait(0));
    var w6 := Next(v, w5, Action);
    var w7 := Next(v, w6, Step(0, SnakeRunner.HitObstacle, [Start]));
    Next(v, w7, GameOverCallback(0))
  }

  lemma ResumedDuringRequestState(v: Variant)
    ensures ResumedDuringRequest(v) == World(PauseControl.Barrier(1, false, 0, 2), true,
      [Runner(0, 1, 0, Done)], [[Start]], SnakeApp.Paused, AwaitingPause, 0, true, [0])
  {
    ParkedAtStartState(v);
    var w3 := Next(v, ParkedAtStart(v), Action);
    assert w3 == World(PauseControl.Barrier(1, false, 0, 1), false,
      [Runner(0, 1, 0, Parked)], [[Start]], SnakeApp.Running, Idle, -1, false, []);
    var w4 := Next(v, w3, AwaitWake(0));
    assert w4 == w3.(runners := [Runner(0, 1, 0, Resumed)]);
    var w5 := Next(v, w4, AfterWait(0));
    assert w5 == w3.(runners := [Runner(0, 1, 0, Stepping)]);
    var w6 := Next(v, w5, Action);
    assert w6 == World(PauseControl.Barrier(1, true, 0, 2), false,
      [Runner(0, 1, 0, Stepping)], [[Start]], SnakeApp.Paused, AwaitingPause, -1, false, []);
    var w7 := Next(v, w6, Step(0, SnakeRunner.HitObstacle, [Start]));
    assert w7 == World(PauseControl.Barrier(1, true, 0, 2), true,
      [Runner(0, 1, 0, Notifying)], [[Start]], SnakeApp.Paused, AwaitingPause, -1, false, [0]);
  }

  /** As written, that session is deadlocked: the resume cleared the count
      while the event thread waits for it to reach the runner count, and no
      runner is left to acknowledge. */
  lemma ResumeDuringRequestDeadlocks()
    ensures ResumedDuringRequest(AsWritten).ui == AwaitingPause
    ensures !ResumedDuringRequest(AsWritten).barrier.paused
    ensures Stuck(AsWritten, ResumedDuringRequest(AsWritten))
  {
    ResumedDuringRequestState(AsWritten);
    StrandedAfterResume();
  }

  /** The session reached above admits no event that changes it: the event
      thread waits on a count of 0 out of 1, the only runner has left, and
      the posted stop needs the event thread. */
  lemma StrandedAfterResume()
    ensures Stuck(AsWritten, World(PauseControl.Barrier(1, false, 0, 2), true,
      [Runner(0, 1, 0, Done)], [[Start]], SnakeApp.Paused, AwaitingPause, 0, true, [0]))
  {
    var w := World(PauseControl.Barrier(1, false, 0, 2), true,
      [Runner(0, 1, 0, Done)], [[Start]], SnakeApp.Paused, AwaitingPause, 0, true, [0]);
    forall e
      ensures Next(AsWritten, w, e) == w
    {
      assert !Enabled(AsWritten, w, e);
    }
  }
}

=== FILE: snake_app.dfy ===
/** The controller decisions of the game window (SnakeApp.java) that are not
    drawing or layout: the action button's state dispatch, the longest-snake
    statistic shown while paused, the first-loser latch, and the spawn
    formula of a new session. */
module SnakeApp {

  /** Board dimensions a session is created with. */
  const BoardWidth: nat := 35
  const BoardHeight: nat := 28

  datatype GameState = Stopped | Running | Paused

  /** What `handleAction` does: nothing, or one of the three handlers. */
  datatype Command = Ignore | StartGame | PauseGame | ResumeGame

  /** The state each command leaves the game in. */
  function StateAfter(state: GameState, c: Command): GameState
  {
    match c
    case Ignore => state
    case StartGame => Running
    case PauseGame => Paused
    case ResumeGame => Running
  }

  /** `handleAction`: nothing once the game is over; otherwise a stopped
      game starts, a running one pauses and a paused one resumes. The action
      never stops the game and always changes its state. */
  function HandleAction(gameOver: bool, state: GameState): (c: Command)
    ensures c == Ignore <==> gameOver
    ensures !gameOver ==> StateAfter(state, c) != Stopped && StateAfter(state, c) != state
    ensures c == StartGame <==> !gameOver && state == Stopped
    ensures c == PauseGame ==> state == Running
    ensures c == ResumeGame ==> state == Paused
  {
    if gameOver then Ignore
    else
      match state
      case Stopped => StartGame
      case Running => PauseGame
      case Paused => ResumeGame
  }

  /** Two actions in a row on a started game pause and resume it (or resume
      and pause it), returning to the state they started from. */
  lemma PauseResumeRoundTrip(state: GameState)
    requires state != Stopped
    ensures var s1 := StateAfter(state, HandleAction(false, state));
      StateAfter(s1, HandleAction(false, s1)) == state
  {
  }

  // ---------------------------------------------------------------------
  // Longest snake in the pause statistics
  // ---------------------------------------------------------------------

  /** The loop of `buildPauseStats` over the snakes' lengths: the lowest
      index among the longest snakes and its length, or -1 and -1 when
      there are no snakes. */
  method LongestSnake(lengths: seq<nat>) returns (index: int, length: int)
    ensures index == -1 <==> |lengths| == 0
    ensures index == -1 ==> length == -1
    ensures index != -1 ==> 0 <= index < |lengths| && length == lengths[index]
    ensures forall j | 0 <= j < |lengths| :: lengths[j] <= length
    ensures forall j | 0 <= j < index :: lengths[j] < length
  {
    index, length := -1, -1;
    var i := 0;
    while i < |lengths|
      invariant 0 <= i <= |lengths|
      invariant index == -1 <==> i == 0
      invariant index == -1 ==> length == -1
      invariant index != -1 ==> 0 <= index < i && length == lengths[index]
      invariant forall j | 0 <= j < i :: lengths[j] <= length
      invariant forall j | 0 <= j < index :: lengths[j] < length
    {
      if lengths[i] > length {
        index, length := i, lengths[i];
      }
      i := i + 1;
    }
  }

  // ---------------------------------------------------------------------
  // The first-loser latch
  // ---------------------------------------------------------------------

  /** `worstSnake.compareAndSet(-1, index)`: the first report after a reset
      is kept, later ones are ignored. */
  function ReportLoser(worst: int, index: int): (w: int)
    ensures worst != -1 ==> w == worst
    ensures worst == -1 ==> w == index
  {
    if worst == -1 then index else worst
  }

  /** The latch after the reports of `indices`, in order. */
  function ReportAll(worst: int, indices: seq<int>): int
    decreases |indices|
  {
    if |indices| == 0 then worst else ReportAll(ReportLoser(worst, indices[0]), indices[1..])
  }

  /** From a reset latch, any sequence of snake indices leaves the first
      one reported, or -1 ("none has died") when there was none. */
  lemma {:induction false} FirstLoserKept(indices: seq<int>)
    requires forall i | 0 <= i < |indices| :: indices[i] >= 0
    ensures ReportAll(-1, indices) == (if |indices| == 0 then -1 else indices[0])
  {
    if |indices| > 0 {
      LatchedStays(indices[0], indices[1..]);
    }
  }

  /** A latched value survives every later report. */
  lemma {:induction false} LatchedStays(worst: int, indices: seq<int>)
    requires worst != -1
    ensures ReportAll(worst, indices) == worst
    decreases |indices|
  {
    if |indices| > 0 {
      LatchedStays(ReportLoser(worst, indices[0]), indices[1..]);
    }
  }

  // ---------------------------------------------------------------------
  // Spawning a session
  // ---------------------------------------------------------------------

  /** Where snake `i` is created and the index of its initial direction. */
  datatype Spawn = Spawn(x: int, y: int, dir: nat)

  /** The spawn formula of `resetGame`. Both coordinates start at 2 and are
      offset by 3 columns and 2 rows per snake, wrapping around the board's
      size; the direction cycles through the `numDirs` directions. The
      first snakes therefore lie on a diagonal, one direction each. */
  function SpawnOf(i: nat, width: nat, height: nat, numDirs: nat): (s: Spawn)
    requires width > 0 && height > 0 && numDirs > 0
    ensures 2 <= s.x < width + 2 && 2 <= s.y < height + 2 && s.dir < numDirs
    ensures 3 * i < width ==> s.x == 2 + 3 * i
    ensures 2 * i < height ==> s.y == 2 + 2 * i
    ensures i < numDirs ==> s.dir == i
  {
    Spawn(2 + Wrap(3 * i, width), 2 + Wrap(2 * i, height), Wrap(i, numDirs))
  }

  /** Java's `%` on a non-negative left operand and a positive modulus. */
  function Wrap(a: nat, m: nat): (r: nat)
    requires m > 0
    ensures r < m
    ensures a < m ==> r == a
  {
    a % m
  }

  /** The formula does not keep a snake on the board: on the 35-column board
      snake 11 spawns in column 35, one past the last. */
  lemma SpawnCanLeaveBoard()
    ensures SpawnOf(11, BoardWidth, BoardHeight, 4).x == BoardWidth
  {
  }

  /** The spawns of `resetGame`'s loop: one per snake, snake `i` at
      position `i`; a negative snake count spawns none. */
  function Spawns(n: int, width: nat, height: nat, numDirs: nat): (s: seq<Spawn>)
    requires width > 0 && height > 0 && numDirs > 0
    ensures |s| == (if n < 0 then 0 else n)
    ensures forall i | 0 <= i < |s| :: s[i] == SpawnOf(i, width, height, numDirs)
  {
    if n <= 0 then []
    else seq(n, i requires 0 <= i => SpawnOf(i, width, height, numDirs))
  }
}

=== FILE: snake_runner.dfy ===
/** The per-snake simulation tick (SnakeRunner.java): the collision test
    against the whole roster, the one-shot game-over trigger, and the turbo
    countdown that selects the tick delay and the turn probability.

    The board, the snake and their directions are not part of this model: a
    snake is the sequence of its cells, head first, and the board's step is
    an arbitrary `MoveResult` chosen by the caller. */
module SnakeRunner {
  import opened Results

  /** A grid cell, compared by value. */
  datatype Position = Position(x: int, y: int)

  /** The classified outcome of the board's step: the runner only tells
      a fatal obstacle and a turbo pickup apart from every other result. */
  datatype MoveResult = Moved | HitObstacle | AteTurbo

  const BaseSleepMs: nat := 80
  const TurboSleepMs: nat := 40
  const TurboTicksOnPickup: nat := 100
  const BaseTurnProbability: real := 0.10
  const TurboTurnProbability: real := 0.05

  // ---------------------------------------------------------------------
  // Collision with the roster
  // ---------------------------------------------------------------------

  /** Cell `k` of snake `j` is one the collision test compares the head with:
      every cell of another snake, and every cell but the first of its own. */
  predicate Compared(roster: seq<seq<Position>>, self: nat, j: int, k: int)
  {
    0 <= j < |roster| && 0 <= k < |roster[j]| && (j != self || k >= 1)
  }

  /** The collision rule, stated directly. */
  ghost predicate HitsAny(roster: seq<seq<Position>>, self: nat, head: Position)
  {
    exists j, k :: Compared(roster, self, j, k) && roster[j][k] == head
  }

  /** The inner loop over one snapshot; `skipFirst` is the `isSelf && first`
      flag that passes over the runner's own first cell. */
  function HitsBody(head: Position, body: seq<Position>, skipFirst: bool): (r: bool)
    ensures r <==> exists k | 0 <= k < |body| && (skipFirst ==> k >= 1) :: body[k] == head
    decreases |body|
  {
    if |body| == 0 then false
    else
      assert forall k | 1 <= k < |body| :: body[1..][k - 1] == body[k];
      if skipFirst then HitsBody(head, body[1..], false)
      else head == body[0] || HitsBody(head, body[1..], false)
  }

  /** The outer loop, from snake `j` of the roster onwards. */
  function CollidesFrom(roster: seq<seq<Position>>, self: nat, head: Position, j: nat): (r: bool)
    requires j <= |roster|
    ensures r <==> exists j', k :: j <= j' && Compared(roster, self, j', k) && roster[j'][k] == head
    decreases |roster| - j
  {
    if j == |roster| then false
    else
      var here := HitsBody(head, roster[j], j == self);
      assert here ==> exists k :: Compared(roster, self, j, k) && roster[j][k] == head;
      here || CollidesFrom(roster, self, head, j + 1)
  }

  /** `collidesWithAnySnake`: the snake at index `self` of the roster, whose
      head is `head`, collides exactly when the head equals a cell the rule
      compares. Identity by index stands for the source's reference test. */
  function CollidesWithAnySnake(roster: seq<seq<Position>>, self: nat, head: Position): (r: bool)
    ensures r <==> HitsAny(roster, self, head)
  {
    CollidesFrom(roster, self, head, 0)
  }

  /** A roster holding only the runner's own one-cell snake never collides,
      whatever head it is asked about. */
  lemma LoneSnakeNeverCollides(cell: Position, head: Position)
    ensures !CollidesWithAnySnake([[cell]], 0, head)
  {
  }

  /** The roster with the first cell of snake `self` replaced by `c`. */
  function WithOwnFirst(roster: seq<seq<Position>>, self: nat, c: Position): seq<seq<Position>>
    requires self < |roster| && |roster[self]| > 0
  {
    roster[self := roster[self][0 := c]]
  }

  /** Another snake's head counts, and so does any later cell of one's own
      body; one's own first cell never does. */
  lemma CollisionCases(roster: seq<seq<Position>>, self: nat, head: Position)
    ensures forall j | 0 <= j < |roster| && j != self && |roster[j]| > 0 && roster[j][0] == head ::
      CollidesWithAnySnake(roster, self, head)
    ensures self < |roster| && |roster[self]| > 1 && roster[self][1] == head ==>
      CollidesWithAnySnake(roster, self, head)
    ensures self < |roster| && |roster[self]| > 0 ==>
      forall c: Position :: CollidesWithAnySnake(roster, self, head) ==
        CollidesWithAnySnake(WithOwnFirst(roster, self, c), self, head)
  {
    forall j | 0 <= j < |roster| && j != self && |roster[j]| > 0 && roster[j][0] == head
      ensures CollidesWithAnySnake(roster, self, head)
    {
      assert Compared(roster, self, j, 0);
    }
    if self < |roster| && |roster[self]| > 1 && roster[self][1] == head {
      assert Compared(roster, self, self, 1);
    }
    if self < |roster| && |roster[self]| > 0 {
      forall c: Position
        ensures CollidesWithAnySnake(roster, self, head) ==
          CollidesWithAnySnake(WithOwnFirst(roster, self, c), self, head)
      {
        var moved := WithOwnFirst(roster, self, c);
        assert forall j, k :: Compared(roster, self, j, k) <==> Compared(moved, self, j, k);
        assert forall j, k | Compared(roster, self, j, k) :: roster[j][k] == moved[j][k];
      }
    }
  }

  // ---------------------------------------------------------------------
  // The one-shot game-over trigger
  // ---------------------------------------------------------------------

  /** The shared flag after a trigger, and the index the game-over callback
      was invoked with, if this call invoked it. */
  datatype Triggered = Triggered(gameOver: bool, notified: Option<nat>)

  /** `triggerGameOver`: compare-and-set of the shared flag from false to
      true; only the call that flips it invokes the callback, with its own
      snake's index. */
  function TriggerGameOver(gameOver: bool, index: nat): (r: Triggered)
    ensures r.gameOver
    ensures r.notified.Some? <==> !gameOver
    ensures r.notified.Some? ==> r.notified.value == index
  {
    if gameOver then Triggered(true, None) else Triggered(true, Some(index))
  }

  /** The shared flag after a race of triggers, and every callback invocation
      in order. */
  datatype Race = Race(gameOver: bool, notified: seq<nat>)

  /** The triggers of `callers`, in the order the compare-and-set serialises
      them. */
  function TriggerAll(gameOver: bool, callers: seq<nat>): Race
    decreases |callers|
  {
    if |callers| == 0 then Race(gameOver, [])
    else
      var t := TriggerGameOver(gameOver, callers[0]);
      var rest := TriggerAll(t.gameOver, callers[1..]);
      match t.notified
      case Some(i) => Race(rest.gameOver, [i] + rest.notified)
      case None => rest
  }

  /** Whatever runners trigger and in whatever order, the callback runs at
      most once, exactly when the flag was clear and someone triggered, with
      the first caller's index; the flag is set afterwards. */
  lemma {:induction false} CallbackAtMostOnce(gameOver: bool, callers: seq<nat>)
    ensures |TriggerAll(gameOver, callers).notified| <= 1
    ensures |TriggerAll(gameOver, callers).notified| == 1 <==> !gameOver && |callers| > 0
    ensures |TriggerAll(gameOver, callers).notified| == 1 ==>
      TriggerAll(gameOver, callers).notified[0] == callers[0]
    ensures TriggerAll(gameOver, callers).gameOver <==> gameOver || |callers| > 0
    decreases |callers|
  {
    if |callers| > 0 {
      CallbackAtMostOnce(true, callers[1..]);
      NoCallbackOnceSet(callers[1..]);
    }
  }

  /** Once the flag is set, no trigger invokes the callback. */
  lemma {:induction false} NoCallbackOnceSet(callers: seq<nat>)
    ensures TriggerAll(true, callers) == Race(true, [])
    decreases |callers|
  {
    if |callers| > 0 {
      NoCallbackOnceSet(callers[1..]);
    }
  }

  // ---------------------------------------------------------------------
  // Turbo countdown, tick delay and turn probability
  // ---------------------------------------------------------------------

  /** The turbo counter after the board's step: a pickup restarts it. */
  function TurboAfterStep(turbo: nat, res: MoveResult): nat
  {
    if res == AteTurbo then TurboTicksOnPickup else turbo
  }

  /** The delay of a tick, chosen before the counter is decremented. */
  function SleepMs(turbo: nat): nat
  {
    if turbo > 0 then TurboSleepMs else BaseSleepMs
  }

  /** The decrement at the end of a tick, which stops at zero. */
  function Decay(turbo: nat): nat
  {
    if turbo > 0 then turbo - 1 else 0
  }

  /** The probability `maybeTurn` compares its random draw with. */
  function TurnProbability(turbo: nat): (p: real)
    ensures 0.0 < p <= BaseTurnProbability
    ensures p == TurboTurnProbability <==> turbo > 0
    ensures turbo == 0 ==> p == BaseTurnProbability
  {
    if turbo > 0 then TurboTurnProbability else BaseTurnProbability
  }

  /** How one tick ends after its step: the loop ends, or it sleeps for
      `sleepMs` and continues with the counter `turbo`. */
  datatype TickEnd = Fatal | Continue(sleepMs: nat, turbo: nat)

  /** The decisions of one tick after the board's step: a fatal obstacle or
      a collision ends the loop (after the trigger); otherwise the delay
      follows the counter and the counter counts down. `collides` is the
      collision test's answer, which the source only asks when the step did
      not hit an obstacle. */
  function Tick(turbo: nat, res: MoveResult, collides: bool): (e: TickEnd)
    ensures e.Fatal? <==> res == HitObstacle || collides
    ensures e.Continue? && res != AteTurbo ==> e.turbo == (if turbo > 0 then turbo - 1 else 0)
    ensures e.Continue? ==> (e.sleepMs == TurboSleepMs <==> res == AteTurbo || turbo > 0)
    ensures e.Continue? ==> e.sleepMs == TurboSleepMs || e.sleepMs == BaseSleepMs
    ensures e.Continue? && res == AteTurbo ==> e.turbo == TurboTicksOnPickup - 1
  {
    if res == HitObstacle then Fatal
    else
      var t := TurboAfterStep(turbo, res);
      if collides then Fatal else Continue(SleepMs(t), Decay(t))
  }

  /** The delays of a run of ticks that never end the loop (no obstacle, no
      collision), from counter `turbo`; the run stops at an obstacle. */
  function Delays(turbo: nat, results: seq<MoveResult>): seq<nat>
    decreases |results|
  {
    if |results| == 0 then []
    else
      match Tick(turbo, results[0], false)
      case Fatal => []
      case Continue(ms, t) => [ms] + Delays(t, results[1..])
  }

  /** `n` copies of `v`. */
  function Repeat(v: nat, n: nat): (s: seq<nat>)
    ensures |s| == n && forall i | 0 <= i < n :: s[i] == v
  {
    seq(n, _ => v)
  }

  /** `n` ordinary steps. */
  function Moves(n: nat): (s: seq<MoveResult>)
    ensures |s| == n && forall i | 0 <= i < n :: s[i] == Moved
  {
    seq(n, _ => Moved)
  }

  function Min(a: nat, b: nat): nat
  {
    if a <= b then a else b
  }

  /** From counter `t`, ordinary ticks run fast for exactly `t` ticks and at
      the base delay afterwards. */
  lemma {:induction false} CountdownDelays(t: nat, n: nat)
    ensures Delays(t, Moves(n)) == Repeat(TurboSleepMs, Min(t, n)) + Repeat(BaseSleepMs, n - Min(t, n))
    decreases n
  {
    if n > 0 {
      assert Moves(n)[1..] == Moves(n - 1);
      CountdownDelays(Decay(t), n - 1);
      if t > 0 {
        assert Repeat(TurboSleepMs, Min(t, n)) == [TurboSleepMs] + Repeat(TurboSleepMs, Min(t - 1, n - 1));
      } else {
        assert Repeat(BaseSleepMs, n) == [BaseSleepMs] + Repeat(BaseSleepMs, n - 1);
      }
    }
  }

  /** After a turbo pickup followed by ordinary ticks, exactly 100 ticks,
      the pickup tick included, use the turbo delay, whatever the counter
      was before; every later tick uses the base delay. */
  lemma TurboPickupDelays(before: nat, n: nat)
    ensures Delays(before, [AteTurbo] + Moves(n)) ==
      Repeat(TurboSleepMs, Min(TurboTicksOnPickup, n + 1)) +
      Repeat(BaseSleepMs, n + 1 - Min(TurboTicksOnPickup, n + 1))
  {
    assert ([AteTurbo] + Moves(n))[1..] == Moves(n);
    CountdownDelays(TurboTicksOnPickup - 1, n);
    assert Repeat(TurboSleepMs, Min(TurboTicksOnPickup, n + 1)) ==
      [TurboSleepMs] + Repeat(TurboSleepMs, Min(TurboTicksOnPickup - 1, n));
  }
}
